=== FILE: README.md ===
# StyleFeatureEditor web app and StyleRes CLI: job slot, live console and argument checks

This project models, in Dafny, the two pieces of sequential logic in the
repository's image-editing front-ends. The editing itself happens inside
pretrained models and is not part of this model.

- **The web app's job slot** (`SFE/StyleFeatureEditor/app.py`). The app keeps
  one job at a time in module-level state: `current_status`, `current_result`
  and `is_processing`. Beside them sits `ConsoleCapture`, a list of captured
  output chunks that keeps only the newest 100. The UI's start buttons
  validate the input, reset the slot and spawn a background worker.
  "Get Results" hands a finished image out once. "Refresh Status" renders
  the console and the status.
- **The worker's four outcomes** (`RunOutcome`):
  - an edited image;
  - no output file;
  - an exception from the runner;
  - an exception while opening or removing the files after the runner
    returned.
- **How the web app is modelled:**
  - `LiveConsole.ConsoleCapture` is a class whose `buffer` field the methods
    update in place.
  - `EditorApp.App` is a class holding the three globals and the console.
    Each of its mutating methods is proved against a pure step function on
    `AppState`: `SubmitStandard`, `SubmitStyleclip`, `Work` and `Retrieve`.
    The lemmas about those step functions state the lifecycle: rejections
    change nothing, every outcome ends idle, a result is consumed once, and
    the state invariant holds.
  - Images are opaque handles.
  - The runner's console output and its outcome are parameters of the worker.
- **The StyleRes CLI's argument checks** (`styleres/StyleRes/cli.py`, `main`
  up to the model load). This is modelled as the pure function
  `StyleResCli.Resolve`. It returns a listing, an error kind, or the resolved
  run (method, edit, factor and the rest). The `AppUtils` metadata (methods,
  the edits of each method, the factor range of each method) and the file
  system's `exists` are parameters. Factors are `real`s, because the code
  only compares them.

Python details made explicit:
- `str.strip()` removes exactly the characters for which `str.isspace()`
  holds (`PyText.IsSpace`).
- `print(x)` on the capture is two writes, `x` and then `"\n"`.
- An option string counts as given only when it is present and non-empty,
  which is Python's truthiness.
- `methods[0]` and `edits[0]` on an empty list raise `IndexError`. The model
  reports these as the `NoMethods` and `NoEdits` errors.

Two details of the code:
- Status changes are not echoed to the console buffer. Only the worker's
  prints between the redirect (app.py:71) and the restore (app.py:110 and
  140) reach it. The error and success prints at the end go to the real
  standard output.
- The "no output file" failure sets a fixed status that carries no
  description.

## Model

| member | source | states |
|---|---|---|
| `LiveConsole.Capped` | SFE/StyleFeatureEditor/app.py:37-38 | The trim keeps min(100, n) entries. |
| `LiveConsole.CappedKeepsNewest` | SFE/StyleFeatureEditor/app.py:37-38 | What the trim keeps is the newest suffix of the list, in order; a list within the cap is unchanged. |
| `LiveConsole.CappedPush` | SFE/StyleFeatureEditor/app.py:35-38 | Trimming after each append gives the same list as trimming once after the appends. |
| `LiveConsole.CappedAppend` | SFE/StyleFeatureEditor/app.py:35-38 | A run of writes leaves the newest 100 entries of the old entries followed by the chunks, whether or not the old list was trimmed first. |
| `LiveConsole.CappedAfter` | SFE/StyleFeatureEditor/app.py:35-38 | A run of writes after earlier writes gives the same list as all of them at once. |
| `LiveConsole.OutputAfterWrite` | SFE/StyleFeatureEditor/app.py:50-52 | After a write, the joined output is a suffix of the old output followed by the new text, and it ends with that text. |
| `LiveConsole.ConsoleCapture.constructor` | SFE/StyleFeatureEditor/app.py:29-31 | The capture starts empty. |
| `LiveConsole.ConsoleCapture.Write` | SFE/StyleFeatureEditor/app.py:33-38 | After a write the buffer is the newest 100 entries of the old buffer followed by the text, with the text last. |
| `LiveConsole.ConsoleCapture.Print` | SFE/StyleFeatureEditor/app.py:71-82 | `print(line)` under the redirect appends the line and then a newline, trimmed to the cap. |
| `LiveConsole.ConsoleCapture.WriteEach` | SFE/StyleFeatureEditor/app.py:96-105 | The runner's writes during the edit call leave the newest 100 entries of the old buffer followed by the chunks. |
| `PyText.Strip` | SFE/StyleFeatureEditor/app.py:181 | `strip()` is the slice that starts after the leading whitespace, is followed only by whitespace, and neither starts nor ends with whitespace. |
| `PyText.StripBlank` | SFE/StyleFeatureEditor/app.py:181 | `not p.strip()` holds exactly when every character of `p` is whitespace. |
| `PyText.JoinAppend` | SFE/StyleFeatureEditor/app.py:52 | `''.join` of a concatenation is the concatenation of the joins. |
| `EditorApp.App.constructor` | SFE/StyleFeatureEditor/app.py:22-26 | The app starts "Ready", with no result, idle and with an empty console. |
| `EditorApp.App.StartProcessingStandard` | SFE/StyleFeatureEditor/app.py:149-172 | Returns no image, and the new state, reply and spawned job of `SubmitStandard`; keeps the invariant. |
| `EditorApp.App.StartProcessingStyleclip` | SFE/StyleFeatureEditor/app.py:174-198 | Returns no image, and the new state, reply and spawned job of `SubmitStyleclip`; keeps the invariant. |
| `EditorApp.App.ProcessImageBackground` | SFE/StyleFeatureEditor/app.py:57-147 | The worker leaves the state `Work` gives. It publishes the phases starting, processing, then finalizing unless the runner raised, then the outcome status. It calls the runner with the job's editing name. |
| `EditorApp.App.GetResults` | SFE/StyleFeatureEditor/app.py:200-212 | Returns the image and message of `Retrieve` and leaves its state. |
| `EditorApp.App.GetLiveStatus` | SFE/StyleFeatureEditor/app.py:214-228 | The report is the console output, then the status block, then the indicator line and nothing else. It ends with the processing line exactly when a job runs, and with the ready line exactly when none runs and a result waits. |
| `EditorApp.ReportEndings` | SFE/StyleFeatureEditor/app.py:221-226 | A report ending in the rule and then one indicator or none ends with an indicator exactly when that indicator was added. |
| `EditorApp.RejectedSubmissionChangesNothing` | SFE/StyleFeatureEditor/app.py:178-182 | Without an image, or with an all-whitespace prompt, a start function returns its message, spawns nothing and changes no state. The image check comes first. |
| `EditorApp.AcceptedSubmissionResets` | SFE/StyleFeatureEditor/app.py:184-198 | An accepted start empties the console, clears the result, marks the slot busy with the variant's starting status, and spawns one job on the image. |
| `EditorApp.SubmittedEditingName` | SFE/StyleFeatureEditor/app.py:88-94 | The runner gets `editing_type` in standard mode. In StyleCLIP mode it gets "styleclip_global_" + neutral + "_" + target + "_" + disentanglement, built from the stripped, non-blank prompts. |
| `EditorApp.WorkerEndsIdle` | SFE/StyleFeatureEditor/app.py:113-146 | Every modelled outcome ends with processing off. There is a result exactly when an image was produced, with the COMPLETE status. A missing output file gives the failure text. Either exception gives "❌ Error: " + message. Finalizing is published unless the runner itself raised. |
| `EditorApp.WorkerConsole` | SFE/StyleFeatureEditor/app.py:69-111 | After the worker, the console holds exactly the newest min(100, n) of the n entries: the old entries followed by the worker's writes. When the runner returned, the completion print comes last. |
| `EditorApp.ConsumeOnce` | SFE/StyleFeatureEditor/app.py:204-212 | Two `get_results` in a row never both return an image. With no result, the call returns the status and changes nothing. |
| `EditorApp.SuccessDeliveredOnce` | SFE/StyleFeatureEditor/app.py:124-127 | After a success, one `get_results` returns the image with the success message and "Ready for next image" follows. The next call returns nothing. |
| `EditorApp.FailureReported` | SFE/StyleFeatureEditor/app.py:131-146 | After a failure, `get_results` returns no image and the failure status, and changes nothing. |
| `EditorApp.StepsKeepInv` | SFE/StyleFeatureEditor/app.py:159-163 | Every step keeps the console within 100 entries and keeps the result empty while a job runs. |
| `EditorApp.StandardEditScenario` | SFE/StyleFeatureEditor/app.py:166-172 | An "age" edit at power 0 is accepted and moves through starting, processing, finalizing and COMPLETE. Getting the results then yields the edited image. |
| `StyleResCli.Resolve` | styleres/StyleRes/cli.py:21-75 | `--list-methods` wins over everything else. `--list-edits` either lists or rejects before the path checks. Without a listing flag there is never a listing. A missing path is the parser error. A missing input file, a missing or unknown method, and a missing or unknown edit each give their own error. A run that proceeds has its method, edit, range and input file all valid. |
| `StyleResCli.ResolveProceedsExactly` | styleres/StyleRes/cli.py:46-75 | The chain proceeds with exactly the run a declarative statement of all the checks accepts. That statement covers the method and edit defaults (the first entry) and their membership. |
| `StyleResCli.FactorRangeInclusive` | styleres/StyleRes/cli.py:67-73 | With both bounds known, a run that passes the earlier checks proceeds iff min ≤ factor ≤ max. Otherwise it fails with the out-of-range error. An inverted range rejects every factor. |
| `StyleResCli.RangeLookupErrorOnlyWarns` | styleres/StyleRes/cli.py:68-75 | When the range lookup raises, or a bound cannot be compared with the factor (a TypeError at line 71), any factor proceeds, with only a warning. |

## Left out

- Gradio UI construction, event wiring and `demo.launch` (app.py:231-344): presentation only.
- Threads and `processing_lock`: each UI action, and each whole run of `process_image_background`, is one atomic step. A poll sees the state before the worker or after it. It never sees an intermediate status or a partly filled console. The statuses the worker publishes in between are the ghost `published` of `EditorApp.App.ProcessImageBackground`. Interleavings and the last-write-wins race between two concurrent jobs are not modelled.
- Redirecting `sys.stdout`/`sys.stderr`, teeing each write to `sys.__stdout__`, and `ConsoleCapture.flush` (a no-op): process-wide I/O. Prints made outside the redirect are not modelled.
- The `console_output` global: it is assigned and never read.
- Temporary files, `image.save`, `Image.open` and `os.unlink`: they reduce to the four `RunOutcome`s. An `Image.open` or `os.unlink` exception is `FailedAfterRun`. An `image.save` exception has no outcome (see below).
- `EditorApp.App.ProcessImageBackground`: has no outcome for an exception raised while creating or saving the temporary input (app.py:75-80). That run skips the worker's prints and the processing phase. It ends in the same state as `Raised`, except for the console contents.
- `EditorApp.App.ProcessImageBackground`: `NoOutput` is a run where the pre-created output file (app.py:79-80, `delete=False`) no longer exists after the runner returns. A runner that leaves the file empty is `FailedAfterRun`, because opening it raises.
- `EditorApp.WorkerEndsIdle`: covers only exceptions derived from `Exception`, which app.py:138 catches. A `BaseException` such as `SystemExit` ends the thread with `is_processing` still true and standard output still redirected. That case is not modelled.
- `SimpleRunner` loading and `runner.edit`: external model code. The worker takes the runner's printed chunks and its outcome as parameters.
- Float formatting: the StyleCLIP disentanglement is carried as the decimal text Python prints for it. Power and mask threshold are `real`s that are passed through unchanged.
- `LiveConsole.ConsoleCapture.GetOutput` has no contract of its own. What the joined output is after a write is stated by `LiveConsole.OutputAfterWrite`.
- CLI printing (the listings, error and warning texts) and exit codes: an `Outcome` value stands for them.
- CLI model loading, image loading, editing and saving (cli.py:84-123): foreign model calls and GPU work.
- `AppUtils` internals: they are parameters.
- argparse's own parsing and type conversion: the model starts from the parsed arguments.
- A NaN or infinite factor: `real` has neither.
- `SFE/StyleFeatureEditor/cli.py`: argparse, one direct runner call and plotting, with no logic of its own.

=== FILE: console_capture.dfy ===
/**
 * The web app's live console: a list of written text chunks that keeps only
 * the 100 most recent entries (SFE/StyleFeatureEditor/app.py, class ConsoleCapture).
 */
module LiveConsole {
  import opened PyText

  /** The cap on the number of entries the buffer keeps. */
  const MaxEntries: nat := 100

  /**
   * The list after `if len(buffer) > 100: buffer = buffer[-100:]`:
   * the newest min(100, |entries|) entries, in their original order.
   */
  function Capped(entries: seq<string>): (kept: seq<string>)
    ensures |kept| == if |entries| > MaxEntries then MaxEntries else |entries|
  {
    if |entries| > MaxEntries then entries[|entries| - MaxEntries..] else entries
  }

  /** What the trim keeps is the newest part of the list: its entries, in order, and nothing else. */
  lemma CappedKeepsNewest(entries: seq<string>)
    ensures var kept := Capped(entries);
      && kept == entries[|entries| - |kept|..]
      && (|entries| <= MaxEntries ==> kept == entries)
      && forall k :: 0 <= k < |kept| ==> kept[k] == entries[|entries| - |kept| + k]
  {
  }

  /** Trimming after every append gives the same list as trimming once after all of them. */
  lemma CappedPush(entries: seq<string>, text: string)
    ensures Capped(Capped(entries) + [text]) == Capped(entries + [text])
  {
    if |entries| > MaxEntries {
      var n := |entries|;
      var trimmed := entries[n - MaxEntries..];
      assert (trimmed + [text])[1..] == entries[n + 1 - MaxEntries..] + [text];
      assert (entries + [text])[n + 1 - MaxEntries..] == entries[n + 1 - MaxEntries..] + [text];
    }
  }

  /** Trimming an already trimmed list before appending more changes nothing. */
  lemma {:induction false} CappedAppend(entries: seq<string>, more: seq<string>)
    ensures Capped(Capped(entries) + more) == Capped(entries + more)
    decreases |more|
  {
    if more == [] {
      assert Capped(entries) + more == Capped(entries);
      assert entries + more == entries;
    } else {
      var init, last := more[..|more| - 1], more[|more| - 1];
      assert more == init + [last];
      assert Capped(entries) + more == (Capped(entries) + init) + [last];
      assert entries + more == (entries + init) + [last];
      CappedPush(Capped(entries) + init, last);
      CappedAppend(entries, init);
      CappedPush(entries + init, last);
    }
  }

  /** Writing `more` after `log` on a trimmed buffer that started from `base`. */
  lemma CappedAfter(base: seq<string>, log: seq<string>, more: seq<string>)
    ensures Capped(Capped(base + log) + more) == Capped(base + (log + more))
  {
    CappedAppend(base + log, more);
    assert (base + log) + more == base + (log + more);
  }

  /** One more write in a run of writes that started from `start`. */
  lemma CappedNext(start: seq<string>, chunks: seq<string>, i: nat)
    requires i < |chunks|
    ensures Capped((if i == 0 then start else Capped(start + chunks[..i])) + [chunks[i]])
            == Capped(start + chunks[..i + 1])
  {
    assert start + chunks[..i + 1] == (start + chunks[..i]) + [chunks[i]];
    if i == 0 {
      assert start + chunks[..i] == start;
    } else {
      CappedPush(start + chunks[..i], chunks[i]);
    }
  }

  /**
   * After a write, the joined output is a suffix of the old output followed by
   * the new text, and it ends with that text.
   */
  lemma OutputAfterWrite(entries: seq<string>, text: string)
    ensures var before, after := Join(entries) + text, Join(Capped(entries + [text]));
      && |text| <= |after| <= |before|
      && after == before[|before| - |after|..]
      && EndsWith(after, text)
  {
    var all := entries + [text];
    var kept := Capped(all);
    var dropped := all[..|all| - |kept|];
    assert all == dropped + kept;
    JoinAppend(dropped, kept);
    JoinAppend(entries, [text]);
    assert Join([text]) == text + Join([]);
    assert Join(all) == Join(dropped) + Join(kept) == Join(entries) + text;
    assert kept == kept[..|kept| - 1] + [text];
    JoinAppend(kept[..|kept| - 1], [text]);
  }

  class ConsoleCapture {
    /** The captured chunks, oldest first. */
    var buffer: seq<string>

    constructor ()
      ensures buffer == []
    {
      buffer := [];
    }

    /** `write(text)`: append, then drop the oldest entries beyond the cap. */
    method Write(text: string)
      modifies this
      ensures buffer == Capped(old(buffer) + [text])
      ensures |buffer| <= MaxEntries && buffer[|buffer| - 1] == text
    {
      buffer := buffer + [text];
      if |buffer| > MaxEntries {
        buffer := buffer[|buffer| - MaxEntries..];
      }
    }

    /** Python's `print(line)` on the capture: two writes, the text and then the newline. */
    method Print(line: string)
      modifies this
      ensures buffer == Capped(old(buffer) + [line, "\n"])
    {
      Write(line);
      Write("\n");
      CappedPush(old(buffer) + [line], "\n");
      assert old(buffer) + [line] + ["\n"] == old(buffer) + [line, "\n"];
    }

    /** A run of writes, one per chunk, as an external writer (the runner) makes them. */
    method WriteEach(chunks: seq<string>)
      modifies this
      ensures buffer == if chunks == [] then old(buffer) else Capped(old(buffer) + chunks)
    {
      ghost var start := buffer;
      var i := 0;
      while i < |chunks|
        invariant 0 <= i <= |chunks|
        invariant buffer == if i == 0 then start else Capped(start + chunks[..i])
      {
        Write(chunks[i]);
        CappedNext(start, chunks, i);
        i := i + 1;
      }
      assert chunks[..i] == chunks;
    }

    /** `get_output()`: the captured chunks joined in order; the buffer is only read. */
    function GetOutput(): string
      reads this
    {
      Join(buffer)
    }
  }
}

=== FILE: editor_app.dfy ===
/**
 * The web front-end's single job slot (SFE/StyleFeatureEditor/app.py):
 * the module-level `current_status`, `current_result` and `is_processing`,
 * the shared console capture, and the operations the UI buttons and the
 * background worker run on them.
 *
 * Each operation is one atomic step. The class `App` holds the state and
 * updates it in place; every mutating method is proved against a pure step
 * function on `AppState`, and the lemmas at the end state the lifecycle
 * properties over those step functions.
 */
module EditorApp {
  import opened Wrappers
  import opened PyText
  import opened LiveConsole

  /** An opaque handle on a PIL image; the model never looks inside one. */
  datatype Image = Image(handle: nat)

  /**
   * The arguments a start function hands to `process_image_background`.
   * `disentanglement` is the decimal text Python prints for the float.
   */
  datatype Job = Job(
    image: Image,
    editingType: string,
    power: real,
    alignFace: bool,
    useMask: bool,
    maskThreshold: real,
    isStyleclip: bool,
    neutralPrompt: string,
    targetPrompt: string,
    disentanglement: string)

  /** The arguments of the worker's `runner.edit(...)` call (temp-file paths stand for the images). */
  datatype EditRequest = EditRequest(
    original: Image,
    editingName: string,
    editedPower: real,
    align: bool,
    saveInversion: bool,
    useMask: bool,
    maskThreshold: real)

  /**
   * How a run ends.
   * - `Produced`: the runner returned, and the output file opened as the edited image.
   * - `NoOutput`: the runner returned, and the output file, which the worker
   *   created beforehand, no longer exists.
   * - `Raised`: the runner call raised an exception with this message.
   * - `FailedAfterRun`: the runner returned, but opening the output file or
   *   removing the temporary files raised an exception with this message.
   *   An output file the runner left empty does not open as an image.
   */
  datatype RunOutcome =
    | Produced(edited: Image)
    | NoOutput
    | Raised(message: string)
    | FailedAfterRun(message: string)

  /** The shared state: status text, the result slot, the in-progress flag and the console entries. */
  datatype AppState = AppState(status: string, result: Option<Image>, processing: bool, buffer: seq<string>)

  /** A start function's effect: the new state, the reply text, and the worker job it spawns, if any. */
  datatype Submission = Submission(state: AppState, message: string, job: Option<Job>)

  /** `get_results()`'s effect: the new state and the (image, message) pair it returns. */
  datatype Retrieval = Retrieval(state: AppState, image: Option<Image>, message: string)

  const Ready := "Ready"
  const NoImageMessage := "Please upload an image first"
  const NoPromptsMessage := "Please provide both neutral and target prompts"
  const StartingStandard := "🚀 Starting..."
  const StartingStyleclip := "🚀 Starting StyleCLIP..."
  const StandardReply := "🚀 Processing started... Click 'Refresh Status' to see live output!"
  const WorkerStarting := "🚀 Starting processing..."
  const WorkerProcessing := "🔄 Processing image..."
  const WorkerFinalizing := "📥 Finalizing..."
  const Complete := "✅ COMPLETE! Click 'Get Results' to see the image."
  const NoOutputStatus := "❌ Failed to generate edited image"
  const ErrorPrefix := "❌ Error: "
  const ReadyForNext := "Ready for next image"
  const SuccessMessage := "✅ Success! Image loaded."
  const FilesCreatedLine := "📁 Image files created, starting processing..."
  const CompletedLine := "🎯 Processing completed, loading result..."
  const StyleclipNamePrefix := "styleclip_global_"
  /** The disentanglement a standard job carries (unused by it). */
  const DefaultDisentanglement := "0.14"
  /** `'=' * 50`. */
  const Rule := "=================================================="
  const ProcessingIndicator := "\n🔄 Processing... (Click 'Refresh Status' for updates)"
  const ReadyIndicator := "\n✅ Ready! Click 'Get Results' to see image"

  function StyleclipReply(neutralPrompt: string, targetPrompt: string): string
  {
    "🚀 StyleCLIP started: " + neutralPrompt + " -> " + targetPrompt
  }

  /** The editing name the worker passes to the runner. */
  function EditingName(job: Job): string
  {
    if job.isStyleclip then
      StyleclipNamePrefix + job.neutralPrompt + "_" + job.targetPrompt + "_" + job.disentanglement
    else
      job.editingType
  }

  /** The line the worker prints after choosing the editing name. */
  function EditingBanner(job: Job): string
  {
    if job.isStyleclip then
      "🎨 StyleCLIP editing: " + job.neutralPrompt + " -> " + job.targetPrompt
      + " (disentanglement: " + job.disentanglement + ")"
    else
      "✨ Standard editing: " + job.editingType
  }

  function Request(job: Job): EditRequest
  {
    EditRequest(job.image, EditingName(job), job.power, job.alignFace, false, job.useMask, job.maskThreshold)
  }

  /** `print(line)` reaches the console as two writes: the text, then the newline. */
  function Printed(line: string): seq<string>
  {
    [line, "\n"]
  }

  /**
   * The chunks the worker writes while standard output is redirected to the
   * console: its own two prints, whatever the runner prints, and, when the
   * runner returns, the completion print. Later prints go to the real stdout.
   */
  function WorkerLog(job: Job, runnerLog: seq<string>, outcome: RunOutcome): seq<string>
  {
    Printed(FilesCreatedLine) + Printed(EditingBanner(job)) + runnerLog
    + (if outcome.Raised? then [] else Printed(CompletedLine))
  }

  function FinalStatus(outcome: RunOutcome): string
  {
    match outcome
    case Produced(_) => Complete
    case NoOutput => NoOutputStatus
    case Raised(message) => ErrorPrefix + message
    case FailedAfterRun(message) => ErrorPrefix + message
  }

  /** The status texts the worker publishes, in order. */
  function Phases(outcome: RunOutcome): seq<string>
  {
    if outcome.Raised? then [WorkerStarting, WorkerProcessing, FinalStatus(outcome)]
    else [WorkerStarting, WorkerProcessing, WorkerFinalizing, FinalStatus(outcome)]
  }

  /** The state invariant: the console is within its cap, and a running job has no result yet. */
  predicate Inv(s: AppState)
  {
    |s.buffer| <= MaxEntries && (s.processing ==> s.result.None?)
  }

  /** `start_processing_standard`. */
  function SubmitStandard(s: AppState, image: Option<Image>, editingType: string, power: real,
                          alignFace: bool, useMask: bool, maskThreshold: real): Submission
  {
    if image.None? then
      Submission(s, NoImageMessage, None)
    else
      Submission(
        AppState(StartingStandard, None, true, []),
        StandardReply,
        Some(Job(image.value, editingType, power, alignFace, useMask, maskThreshold,
                 false, "", "", DefaultDisentanglement)))
  }

  /** `start_processing_styleclip`: the reply quotes the prompts as typed, the job gets them stripped. */
  function SubmitStyleclip(s: AppState, image: Option<Image>, neutralPrompt: string, targetPrompt: string,
                           disentanglement: string, power: real,
                           alignFace: bool, useMask: bool, maskThreshold: real): Submission
  {
    if image.None? then
      Submission(s, NoImageMessage, None)
    else if Strip(neutralPrompt) == [] || Strip(targetPrompt) == [] then
      Submission(s, NoPromptsMessage, None)
    else
      Submission(
        AppState(StartingStyleclip, None, true, []),
        StyleclipReply(neutralPrompt, targetPrompt),
        Some(Job(image.value, "", power, alignFace, useMask, maskThreshold,
                 true, Strip(neutralPrompt), Strip(targetPrompt), disentanglement)))
  }

  /** `process_image_background` run to its end. */
  function Work(s: AppState, job: Job, runnerLog: seq<string>, outcome: RunOutcome): AppState
  {
    AppState(
      FinalStatus(outcome),
      if outcome.Produced? then Some(outcome.edited) else None,
      false,
      Capped(s.buffer + WorkerLog(job, runnerLog, outcome)))
  }

  /** `get_results`. */
  function Retrieve(s: AppState): Retrieval
  {
    if s.result.Some? then
      Retrieval(s.(status := ReadyForNext, result := None), s.result, SuccessMessage)
    else
      Retrieval(s, None, s.status)
  }

  class App {
    var currentStatus: string
    var currentResult: Option<Image>
    var isProcessing: bool
    const console: ConsoleCapture

    function State(): AppState
      reads this, console
    {
      AppState(currentStatus, currentResult, isProcessing, console.buffer)
    }

    predicate Valid()
      reads this, console
    {
      Inv(State())
    }

    /** The state at import time: "Ready", no result, idle, empty console. */
    constructor ()
      ensures State() == AppState(Ready, None, false, []) && Valid()
      ensures fresh(console)
    {
      currentStatus := Ready;
      currentResult := None;
      isProcessing := false;
      console := new ConsoleCapture();
    }

    method StartProcessingStandard(image: Option<Image>, editingType: string, power: real,
                                   alignFace: bool, useMask: bool, maskThreshold: real)
      returns (shown: Option<Image>, message: string, spawned: Option<Job>)
      requires Valid()
      modifies this, console
      ensures Valid()
      ensures shown == None
      ensures var sub := SubmitStandard(old(State()), image, editingType, power, alignFace, useMask, maskThreshold);
        State() == sub.state && message == sub.message && spawned == sub.job
    {
      shown := None;
      if image.None? {
        return shown, NoImageMessage, None;
      }
      console.buffer := [];
      currentStatus := StartingStandard;
      currentResult := None;
      isProcessing := true;
      spawned := Some(Job(image.value, editingType, power, alignFace, useMask, maskThreshold,
                          false, "", "", DefaultDisentanglement));
      message := StandardReply;
    }

    method StartProcessingStyleclip(image: Option<Image>, neutralPrompt: string, targetPrompt: string,
                                    disentanglement: string, power: real,
                                    alignFace: bool, useMask: bool, maskThreshold: real)
      returns (shown: Option<Image>, message: string, spawned: Option<Job>)
      requires Valid()
      modifies this, console
      ensures Valid()
      ensures shown == None
      ensures var sub := SubmitStyleclip(old(State()), image, neutralPrompt, targetPrompt, disentanglement,
                                         power, alignFace, useMask, maskThreshold);
        State() == sub.state && message == sub.message && spawned == sub.job
    {
      shown := None;
      if image.None? {
        return shown, NoImageMessage, None;
      }
      var neutral, target := Strip(neutralPrompt), Strip(targetPrompt);
      if neutral == [] || target == [] {
        return shown, NoPromptsMessage, None;
      }
      console.buffer := [];
      currentStatus := StartingStyleclip;
      currentResult := None;
      isProcessing := true;
      spawned := Some(Job(image.value, "", power, alignFace, useMask, maskThreshold,
                          true, neutral, target, disentanglement));
      message := StyleclipReply(neutralPrompt, targetPrompt);
    }

    /**
     * The background worker for `job`. The runner prints `runnerLog` while
     * standard output is captured and then ends with `outcome`; `published`
     * is the sequence of status texts a poller can observe, `request` the
     * runner call made.
     */
    method ProcessImageBackground(job: Job, runnerLog: seq<string>, outcome: RunOutcome)
      returns (ghost published: seq<string>, ghost request: EditRequest)
      requires Valid()
      modifies this, console
      ensures Valid()
      ensures State() == Work(old(State()), job, runnerLog, outcome)
      ensures published == Phases(outcome) && request == Request(job)
    {
      ghost var before := console.buffer;
      currentStatus := WorkerStarting;
      currentResult := None;
      isProcessing := true;
      published := [currentStatus];

      console.Print(FilesCreatedLine);
      ghost var log := Printed(FilesCreatedLine);

      currentStatus := WorkerProcessing;
      published := published + [currentStatus];

      var editingName, banner := EditingName(job), EditingBanner(job);
      request := EditRequest(job.image, editingName, job.power, job.alignFace, false, job.useMask, job.maskThreshold);
      assert request == Request(job);
      console.Print(banner);
      CappedAfter(before, log, Printed(banner));
      log := log + Printed(banner);

      console.WriteEach(runnerLog);
      if runnerLog == [] {
        AppendNone(log);
      }
      CappedAfter(before, log, runnerLog);
      log := log + runnerLog;

      if outcome.Raised? {
        currentResult := None;
        currentStatus := ErrorPrefix + outcome.message;
        isProcessing := false;
        published := published + [currentStatus];
        Snoc3(WorkerStarting, WorkerProcessing, currentStatus);
        AppendNone(log);
        return;
      }

      console.Print(CompletedLine);
      CappedAfter(before, log, Printed(CompletedLine));
      log := log + Printed(CompletedLine);

      currentStatus := WorkerFinalizing;
      published := published + [currentStatus];

      if outcome.Produced? {
        currentResult := Some(outcome.edited);
        currentStatus := Complete;
      } else if outcome.NoOutput? {
        currentResult := None;
        currentStatus := NoOutputStatus;
      } else {
        currentResult := None;
        currentStatus := ErrorPrefix + outcome.message;
      }
      isProcessing := false;
      published := published + [currentStatus];
      Snoc4(WorkerStarting, WorkerProcessing, WorkerFinalizing, currentStatus);
    }

    /** `get_results`: hand out the result once, or report the status. */
    method GetResults() returns (image: Option<Image>, message: string)
      requires Valid()
      modifies this
      ensures Valid()
      ensures var r := Retrieve(old(State()));
        State() == r.state && image == r.image && message == r.message
    {
      if currentResult.Some? {
        image := currentResult;
        currentResult := None;
        currentStatus := ReadyForNext;
        message := SuccessMessage;
      } else {
        image := None;
        message := currentStatus;
      }
    }

    /**
     * `get_live_status`: the console output, then a ruled block with the
     * status, then an indicator line while a job runs or while a result waits.
     */
    function GetLiveStatus(): (report: string)
      reads this, console
      ensures var output := console.GetOutput();
        |output| <= |report| && report[..|output|] == output
      ensures var block := StatusBlock(currentStatus);
        var start := |console.GetOutput()|;
        start + |block| <= |report| && report[start..start + |block|] == block
      ensures |report| == |console.GetOutput()| + |StatusBlock(currentStatus)|
                          + (if isProcessing then |ProcessingIndicator|
                             else if currentResult.Some? then |ReadyIndicator| else 0)
      ensures EndsWith(report, ProcessingIndicator) <==> isProcessing
      ensures EndsWith(report, ReadyIndicator) <==> !isProcessing && currentResult.Some?
    {
      var liveOutput := console.GetOutput();
      var statusLine := StatusBlock(currentStatus);
      var indicator :=
        if isProcessing then ProcessingIndicator
        else if currentResult.Some? then ReadyIndicator
        else "";
      ReportEndings(liveOutput + statusLine, indicator);
      assert (liveOutput + statusLine + indicator)[..|liveOutput|] == liveOutput;
      assert (liveOutput + statusLine + indicator)[|liveOutput|..|liveOutput| + |statusLine|] == statusLine;
      liveOutput + statusLine + indicator
    }
  }

  /** The ruled block `get_live_status` puts after the console output. */
  function StatusBlock(status: string): (block: string)
    ensures block != [] && block[|block| - 1] == '='
  {
    "\n" + Rule + "\nStatus: " + status + "\n" + Rule
  }

  /**
   * A report that ends in a rule line followed by one of the two indicator
   * lines, or by nothing, ends with an indicator exactly when that indicator
   * was appended.
   */
  lemma ReportEndings(head: string, indicator: string)
    requires head != [] && head[|head| - 1] == '='
    requires indicator == ProcessingIndicator || indicator == ReadyIndicator || indicator == ""
    ensures EndsWith(head + indicator, ProcessingIndicator) <==> indicator == ProcessingIndicator
    ensures EndsWith(head + indicator, ReadyIndicator) <==> indicator == ReadyIndicator
  {
    var report := head + indicator;
    var last := report[|report| - 1];
    assert ProcessingIndicator[|ProcessingIndicator| - 1] == ')';
    assert ReadyIndicator[|ReadyIndicator| - 1] == 'e';
    if indicator == "" {
      assert report == head;
    } else {
      assert last == indicator[|indicator| - 1];
      assert report[|report| - |indicator|..] == indicator;
    }
    if EndsWith(report, ProcessingIndicator) {
      assert last == report[|report| - |ProcessingIndicator|..][|ProcessingIndicator| - 1];
    }
    if EndsWith(report, ReadyIndicator) {
      assert last == report[|report| - |ReadyIndicator|..][|ReadyIndicator| - 1];
    }
  }

  // ---------------------------------------------------------------------
  // Lifecycle properties of the step functions

  /**
   * A submission without an image, or a StyleCLIP submission whose prompts
   * are all whitespace, replies with the matching message, spawns nothing and
   * leaves the state as it was; the image check comes first.
   */
  lemma RejectedSubmissionChangesNothing(
    s: AppState, image: Option<Image>, editingType: string, neutralPrompt: string, targetPrompt: string,
    disentanglement: string, power: real, alignFace: bool, useMask: bool, maskThreshold: real)
    ensures image.None? ==>
      && SubmitStandard(s, image, editingType, power, alignFace, useMask, maskThreshold)
         == Submission(s, NoImageMessage, None)
      && SubmitStyleclip(s, image, neutralPrompt, targetPrompt, disentanglement, power, alignFace, useMask, maskThreshold)
         == Submission(s, NoImageMessage, None)
    ensures image.Some? && (AllSpace(neutralPrompt) || AllSpace(targetPrompt)) ==>
      SubmitStyleclip(s, image, neutralPrompt, targetPrompt, disentanglement, power, alignFace, useMask, maskThreshold)
      == Submission(s, NoPromptsMessage, None)
  {
    StripBlank(neutralPrompt);
    StripBlank(targetPrompt);
  }

  /**
   * An accepted submission empties the console, clears the result, marks the
   * slot busy with the variant's starting status and spawns one job on the
   * given image.
   */
  lemma AcceptedSubmissionResets(
    s: AppState, image: Image, editingType: string, neutralPrompt: string, targetPrompt: string,
    disentanglement: string, power: real, alignFace: bool, useMask: bool, maskThreshold: real)
    ensures var sub := SubmitStandard(s, Some(image), editingType, power, alignFace, useMask, maskThreshold);
      && sub.state == AppState(StartingStandard, None, true, [])
      && sub.job.Some? && sub.job.value.image == image && !sub.job.value.isStyleclip
    ensures !AllSpace(neutralPrompt) && !AllSpace(targetPrompt) ==>
      var sub := SubmitStyleclip(s, Some(image), neutralPrompt, targetPrompt, disentanglement,
                                 power, alignFace, useMask, maskThreshold);
      && sub.state == AppState(StartingStyleclip, None, true, [])
      && sub.job.Some? && sub.job.value.image == image && sub.job.value.isStyleclip
      && sub.message == StyleclipReply(neutralPrompt, targetPrompt)
  {
    StripBlank(neutralPrompt);
    StripBlank(targetPrompt);
  }

  /**
   * The runner is asked for the chosen editing type in standard mode, and in
   * StyleCLIP mode for "styleclip_global_<neutral>_<target>_<disentanglement>"
   * built from the stripped prompts, which are non-empty and carry no
   * surrounding whitespace.
   */
  lemma SubmittedEditingName(
    s: AppState, image: Image, editingType: string, neutralPrompt: string, targetPrompt: string,
    disentanglement: string, power: real, alignFace: bool, useMask: bool, maskThreshold: real)
    ensures var sub := SubmitStandard(s, Some(image), editingType, power, alignFace, useMask, maskThreshold);
      sub.job.Some? && Request(sub.job.value).editingName == editingType
    ensures var sub := SubmitStyleclip(s, Some(image), neutralPrompt, targetPrompt, disentanglement,
                                       power, alignFace, useMask, maskThreshold);
      sub.job.Some? ==>
        var neutral, target := sub.job.value.neutralPrompt, sub.job.value.targetPrompt;
        && neutral == Strip(neutralPrompt) && target == Strip(targetPrompt)
        && Request(sub.job.value).editingName
           == StyleclipNamePrefix + neutral + "_" + target + "_" + disentanglement
        && neutral != [] && !IsSpace(neutral[0]) && !IsSpace(neutral[|neutral| - 1])
        && target != [] && !IsSpace(target[0]) && !IsSpace(target[|target| - 1])
  {
  }

  /**
   * Every worker outcome leaves the slot idle: a produced image becomes the
   * result with the COMPLETE status; otherwise there is no result and the
   * status says why. The published phases start with the worker's starting
   * status and end with the final one.
   */
  lemma WorkerEndsIdle(s: AppState, job: Job, runnerLog: seq<string>, outcome: RunOutcome)
    ensures var w := Work(s, job, runnerLog, outcome);
      && !w.processing
      && (w.result.Some? <==> outcome.Produced?)
      && (outcome.Produced? ==> w.result == Some(outcome.edited) && w.status == Complete)
      && (outcome.NoOutput? ==> w.status == NoOutputStatus)
      && (outcome.Raised? || outcome.FailedAfterRun? ==> w.status == ErrorPrefix + outcome.message)
      && (Phases(outcome)[|Phases(outcome)| - 2] == WorkerFinalizing <==> !outcome.Raised?)
      && Phases(outcome)[0] == WorkerStarting
      && Phases(outcome)[|Phases(outcome)| - 1] == w.status
  {
  }

  /**
   * The worker's console entries are the newest of everything written since
   * the submission cleared the console, with its completion line last when
   * the runner returned.
   */
  lemma WorkerConsole(s: AppState, job: Job, runnerLog: seq<string>, outcome: RunOutcome)
    ensures var w := Work(s, job, runnerLog, outcome);
      var all := s.buffer + WorkerLog(job, runnerLog, outcome);
      && |w.buffer| == (if |all| > MaxEntries then MaxEntries else |all|)
      && w.buffer == all[|all| - |w.buffer|..]
      && (!outcome.Raised? ==> |w.buffer| >= 2 && w.buffer[|w.buffer| - 2..] == Printed(CompletedLine))
  {
  }

  /** `get_results` hands a result out at most once: a second call in a row returns no image. */
  lemma ConsumeOnce(s: AppState)
    ensures var first := Retrieve(s);
      var second := Retrieve(first.state);
      && second.image == None
      && second.state == first.state
      && (first.image.Some? ==> first.message == SuccessMessage && second.message == ReadyForNext)
      && (first.image.None? ==> first.state == s && first.message == s.status)
  {
  }

  /**
   * After a job succeeds, the next `get_results` returns its image with the
   * success message and leaves "Ready for next image"; the one after returns
   * nothing with that status.
   */
  lemma SuccessDeliveredOnce(s: AppState, job: Job, runnerLog: seq<string>, edited: Image)
    ensures var w := Work(s, job, runnerLog, Produced(edited));
      var first := Retrieve(w);
      var second := Retrieve(first.state);
      && first.image == Some(edited) && first.message == SuccessMessage
      && first.state.status == ReadyForNext && first.state.result.None?
      && second.image == None && second.message == ReadyForNext
  {
  }

  /** After a failed job, `get_results` returns no image and the failure status. */
  lemma FailureReported(s: AppState, job: Job, runnerLog: seq<string>, outcome: RunOutcome)
    requires !outcome.Produced?
    ensures var w := Work(s, job, runnerLog, outcome);
      var r := Retrieve(w);
      && r.image == None && r.state == w
      && r.message == (if outcome.NoOutput? then NoOutputStatus else ErrorPrefix + outcome.message)
  {
  }

  /** Every step keeps the state invariant. */
  lemma StepsKeepInv(
    s: AppState, image: Option<Image>, editingType: string, neutralPrompt: string, targetPrompt: string,
    disentanglement: string, power: real, alignFace: bool, useMask: bool, maskThreshold: real,
    job: Job, runnerLog: seq<string>, outcome: RunOutcome)
    requires Inv(s)
    ensures Inv(SubmitStandard(s, image, editingType, power, alignFace, useMask, maskThreshold).state)
    ensures Inv(SubmitStyleclip(s, image, neutralPrompt, targetPrompt, disentanglement,
                                power, alignFace, useMask, maskThreshold).state)
    ensures Inv(Work(s, job, runnerLog, outcome))
    ensures Inv(Retrieve(s).state)
  {
  }

  /**
   * A standard "age" edit at power 0 on an image: the submission is accepted,
   * the worker publishes starting, processing, finalizing and COMPLETE, and
   * `get_results` then returns the edited image with the success message.
   */
  lemma StandardEditScenario(s: AppState, image: Image, runnerLog: seq<string>, edited: Image)
    ensures var sub := SubmitStandard(s, Some(image), "age", 0.0, true, true, 0.095);
      && sub.job.Some? && sub.message == StandardReply
      && Request(sub.job.value).editingName == "age"
      && var w := Work(sub.state, sub.job.value, runnerLog, Produced(edited));
      && Phases(Produced(edited)) == [WorkerStarting, WorkerProcessing, WorkerFinalizing, Complete]
      && Retrieve(w).image == Some(edited) && Retrieve(w).message == SuccessMessage
  {
  }

  // ---------------------------------------------------------------------
  // Sequence facts for the worker's proof, stated over any element type so
  // that proving them never unfolds the status strings.

  lemma Snoc3<T>(a: T, b: T, c: T)
    ensures [a] + [b] + [c] == [a, b, c]
  {
  }

  lemma Snoc4<T>(a: T, b: T, c: T, d: T)
    ensures [a] + [b] + [c] + [d] == [a, b, c, d]
  {
  }

  lemma AppendNone<T>(s: seq<T>)
    ensures s + [] == s
  {
  }
}

=== FILE: py_text.dfy ===
/**
 * The few Python string builtins the editor front-ends rely on:
 * `str.strip()` with no argument and `''.join(parts)`.
 */
module PyText {

  /** The characters for which Python's `str.isspace()` holds; `str.strip()` removes exactly these. */
  predicate IsSpace(c: char)
  {
    || c == ' ' || c == '\t' || c == '\n' || c == '\r'
    || c == '\U{000B}' || c == '\U{000C}'
    || ('\U{001C}' <= c <= '\U{001F}')
    || c == '\U{0085}' || c == '\U{00A0}' || c == '\U{1680}'
    || ('\U{2000}' <= c <= '\U{200A}')
    || c == '\U{2028}' || c == '\U{2029}' || c == '\U{202F}' || c == '\U{205F}' || c == '\U{3000}'
  }

  predicate AllSpace(s: string)
  {
    forall k :: 0 <= k < |s| ==> IsSpace(s[k])
  }

  /** Length of the longest all-whitespace prefix of `s`. */
  function LeadingSpaces(s: string): (n: nat)
    ensures n <= |s|
    ensures AllSpace(s[..n])
    ensures n < |s| ==> !IsSpace(s[n])
  {
    if s != [] && IsSpace(s[0]) then 1 + LeadingSpaces(s[1..]) else 0
  }

  /** Length of the longest all-whitespace suffix of `s`. */
  function TrailingSpaces(s: string): (n: nat)
    ensures n <= |s|
    ensures AllSpace(s[|s| - n..])
    ensures n < |s| ==> !IsSpace(s[|s| - 1 - n])
  {
    if s != [] && IsSpace(s[|s| - 1]) then 1 + TrailingSpaces(s[..|s| - 1]) else 0
  }

  /**
   * `s.strip()`: the slice of `s` left after removing whitespace at both ends.
   * It starts where the leading whitespace ends, only whitespace follows it,
   * and it neither starts nor ends with whitespace.
   */
  function Strip(s: string): (r: string)
    ensures |r| <= |s| - LeadingSpaces(s)
    ensures r == s[LeadingSpaces(s)..LeadingSpaces(s) + |r|]
    ensures AllSpace(s[LeadingSpaces(s) + |r|..])
    ensures r != [] ==> !IsSpace(r[0]) && !IsSpace(r[|r| - 1])
  {
    var rest := s[LeadingSpaces(s)..];
    var r := rest[..|rest| - TrailingSpaces(rest)];
    assert rest != [] ==> !IsSpace(rest[0]);
    r
  }

  /** `not s.strip()` holds exactly when every character of `s` is whitespace. */
  lemma StripBlank(s: string)
    ensures Strip(s) == [] <==> AllSpace(s)
  {
    var n := LeadingSpaces(s);
    if Strip(s) == [] {
      assert s[..n] == s;
    } else {
      assert !IsSpace(s[n]);
    }
  }

  /** `''.join(parts)`: the parts concatenated in order. */
  function Join(parts: seq<string>): string
  {
    if parts == [] then [] else parts[0] + Join(parts[1..])
  }

  /** Joining a concatenation of lists joins each list and concatenates the results. */
  lemma {:induction false} JoinAppend(a: seq<string>, b: seq<string>)
    ensures Join(a + b) == Join(a) + Join(b)
  {
    if a == [] {
      assert a + b == b;
    } else {
      assert (a + b)[1..] == a[1..] + b;
      JoinAppend(a[1..], b);
    }
  }

  /** `s.endswith(suffix)`. */
  predicate EndsWith(s: string, suffix: string)
  {
    |suffix| <= |s| && s[|s| - |suffix|..] == suffix
  }
}

=== FILE: styleres_cli.dfy ===
/**
 * The StyleRes command line's argument checks (styleres/StyleRes/cli.py, `main`
 * up to loading the model): the two listing modes, the required paths, the
 * method and edit with their defaults, and the factor range.
 *
 * The metadata `AppUtils` reports is taken as parameters: the list of
 * methods, the edits of each method, and the range lookup of each method.
 * Whether a path exists on disk is a parameter too.
 */
module StyleResCli {
  import opened Wrappers

  /** The parsed command line. Absent options are `None`; the factor defaults to 0.0. */
  datatype Args = Args(
    inputImage: Option<string>,
    outputImage: Option<string>,
    device: string,
    methodName: Option<string>,
    edit: Option<string>,
    factor: real,
    align: bool,
    listMethods: bool,
    listEdits: Option<string>)

  /**
   * What `utils.get_range(method)` leads to: the minimum and maximum it
   * reports (either may be `None`), or a TypeError/ValueError inside the
   * `try`. That error comes from looking the range up or from comparing a
   * bound that is not a number with the factor; either way it only warns.
   */
  datatype RangeLookup = Bounds(minimum: Option<real>, maximum: Option<real>) | LookupError

  datatype CliError =
    | UnknownListedMethod(name: string)      // --list-edits names a method that does not exist
    | MissingPaths                           // parser.error: input or output path missing
    | InputNotFound(path: string)            // the input image does not exist
    | NoMethods                              // `methods[0]` on an empty method list (IndexError)
    | UnknownMethod(name: string)
    | NoEdits(methodName: string)            // `edits[0]` on an empty edit list (IndexError)
    | UnknownEdit(edit: string, methodName: string)
    | FactorOutOfRange(factor: real, minimum: real, maximum: real)

  /** The resolved run, as it stands when the model is about to be loaded. */
  datatype Config = Config(
    methodName: string,
    edit: string,
    factor: real,
    align: bool,
    device: string,
    inputImage: string,
    outputImage: string,
    rangeUnknown: bool)   // the range lookup failed and only a warning was printed

  datatype Outcome =
    | ListMethods(methods: seq<string>)
    | ListEdits(methodName: string, edits: seq<string>)
    | Failed(error: CliError)
    | Proceed(config: Config)

  /** Python truthiness of an optional string option: present and not empty. */
  predicate Given(option: Option<string>)
  {
    option.Some? && option.value != ""
  }

  /** Neither listing mode is on and both image paths are given. */
  predicate PathsGiven(args: Args)
  {
    !args.listMethods && !Given(args.listEdits) && Given(args.inputImage) && Given(args.outputImage)
  }

  /** `args.method or methods[0]`: the method named on the command line, else the first one. */
  function ChosenMethod(args: Args, methods: seq<string>): string
    requires Given(args.methodName) || methods != []
  {
    if Given(args.methodName) then args.methodName.value else methods[0]
  }

  /** `args.edit or edits[0]`: the edit named on the command line, else the method's first one. */
  function ChosenEdit(args: Args, edits: seq<string>): string
    requires Given(args.edit) || edits != []
  {
    if Given(args.edit) then args.edit.value else edits[0]
  }

  /** `minimum <= factor <= maximum`, checked only when both bounds are known. */
  predicate FactorAllowed(range: RangeLookup, factor: real)
  {
    match range
    case Bounds(lo, hi) => lo.None? || hi.None? || (lo.value <= factor <= hi.value)
    case LookupError => true
  }

  /**
   * `main` from parsing to the model load, one early return per check.
   * Listing methods wins over everything; listing edits wins over every
   * later check; no failure is reported after a `Proceed`.
   */
  function Resolve(args: Args, methods: seq<string>, editsOf: string -> seq<string>,
                   rangeOf: string -> RangeLookup, fileExists: string -> bool): (r: Outcome)
    ensures args.listMethods ==> r == ListMethods(methods)
    ensures !args.listMethods && Given(args.listEdits) ==>
      (r.ListEdits? <==> args.listEdits.value in methods)
      && (r.ListEdits? ==> r == ListEdits(args.listEdits.value, editsOf(args.listEdits.value)))
      && (!r.ListEdits? ==> r == Failed(UnknownListedMethod(args.listEdits.value)))
    ensures r.Failed? && r.error.MissingPaths? <==>
      !args.listMethods && !Given(args.listEdits) && (!Given(args.inputImage) || !Given(args.outputImage))
    ensures PathsGiven(args) ==>
      (r.Failed? && r.error.InputNotFound? <==> !fileExists(args.inputImage.value))
    ensures !args.listMethods && !Given(args.listEdits) ==> !r.ListMethods? && !r.ListEdits?
    ensures PathsGiven(args) && fileExists(args.inputImage.value) ==>
      && (!Given(args.methodName) && methods == [] ==> r == Failed(NoMethods))
      && (Given(args.methodName) && args.methodName.value !in methods ==>
            r == Failed(UnknownMethod(args.methodName.value)))
    ensures PathsGiven(args) && fileExists(args.inputImage.value)
            && (Given(args.methodName) || methods != []) && ChosenMethod(args, methods) in methods ==>
      var m := ChosenMethod(args, methods);
      && (!Given(args.edit) && editsOf(m) == [] ==> r == Failed(NoEdits(m)))
      && ((Given(args.edit) || editsOf(m) != []) && ChosenEdit(args, editsOf(m)) !in editsOf(m) ==>
            r == Failed(UnknownEdit(ChosenEdit(args, editsOf(m)), m)))
    ensures r.Proceed? ==>
      && r.config.methodName in methods
      && r.config.edit in editsOf(r.config.methodName)
      && FactorAllowed(rangeOf(r.config.methodName), args.factor)
      && fileExists(r.config.inputImage)
  {
    if args.listMethods then
      ListMethods(methods)
    else if Given(args.listEdits) then
      var name := args.listEdits.value;
      if name !in methods then Failed(UnknownListedMethod(name))
      else ListEdits(name, editsOf(name))
    else if !Given(args.inputImage) || !Given(args.outputImage) then
      Failed(MissingPaths)
    else if !fileExists(args.inputImage.value) then
      Failed(InputNotFound(args.inputImage.value))
    else if !Given(args.methodName) && methods == [] then
      Failed(NoMethods)
    else
      var methodName := ChosenMethod(args, methods);
      if methodName !in methods then
        Failed(UnknownMethod(methodName))
      else
        var edits := editsOf(methodName);
        if !Given(args.edit) && edits == [] then
          Failed(NoEdits(methodName))
        else
          var edit := ChosenEdit(args, edits);
          if edit !in edits then
            Failed(UnknownEdit(edit, methodName))
          else
            var config := Config(methodName, edit, args.factor, args.align, args.device,
                                 args.inputImage.value, args.outputImage.value, rangeOf(methodName).LookupError?);
            match rangeOf(methodName)
            case LookupError => Proceed(config)
            case Bounds(lo, hi) =>
              if lo.Some? && hi.Some? && !(lo.value <= args.factor <= hi.value) then
                Failed(FactorOutOfRange(args.factor, lo.value, hi.value))
              else
                Proceed(config)
  }

  /**
   * The checks before the factor range, stated all at once rather than as a
   * chain of early returns: no listing mode, both paths given and the input
   * present, the method given or else the first one, the edit given or else
   * the method's first one, each a member of its list.
   */
  ghost predicate ChecksBeforeRange(args: Args, methods: seq<string>, editsOf: string -> seq<string>,
                                    fileExists: string -> bool, c: Config)
  {
    && !args.listMethods && !Given(args.listEdits)
    && Given(args.inputImage) && Given(args.outputImage) && fileExists(args.inputImage.value)
    && c.inputImage == args.inputImage.value && c.outputImage == args.outputImage.value
    && c.methodName in methods
    && c.methodName == (if Given(args.methodName) then args.methodName.value else methods[0])
    && c.edit in editsOf(c.methodName)
    && c.edit == (if Given(args.edit) then args.edit.value else editsOf(c.methodName)[0])
    && c.factor == args.factor && c.align == args.align && c.device == args.device
  }

  /** The run the command line accepts: the checks above, and the factor inside the range when both bounds are known. */
  ghost predicate Accepts(args: Args, methods: seq<string>, editsOf: string -> seq<string>,
                          rangeOf: string -> RangeLookup, fileExists: string -> bool, c: Config)
  {
    && ChecksBeforeRange(args, methods, editsOf, fileExists, c)
    && FactorAllowed(rangeOf(c.methodName), args.factor)
    && c.rangeUnknown == rangeOf(c.methodName).LookupError?
  }

  /** The chain proceeds with exactly the run the declarative statement accepts. */
  lemma ResolveProceedsExactly(args: Args, methods: seq<string>, editsOf: string -> seq<string>,
                               rangeOf: string -> RangeLookup, fileExists: string -> bool, c: Config)
    ensures Resolve(args, methods, editsOf, rangeOf, fileExists) == Proceed(c)
            <==> Accepts(args, methods, editsOf, rangeOf, fileExists, c)
  {
  }

  /**
   * When the method's range has both bounds, a run that passes every earlier
   * check proceeds exactly when the factor lies in the closed interval, and
   * otherwise fails with the out-of-range error naming the bounds; an
   * inverted range rejects every factor.
   */
  lemma FactorRangeInclusive(args: Args, methods: seq<string>, editsOf: string -> seq<string>,
                             rangeOf: string -> RangeLookup, fileExists: string -> bool,
                             c: Config, lo: real, hi: real)
    requires ChecksBeforeRange(args, methods, editsOf, fileExists, c)
    requires rangeOf(c.methodName) == Bounds(Some(lo), Some(hi))
    ensures var r := Resolve(args, methods, editsOf, rangeOf, fileExists);
      && (r.Proceed? <==> lo <= args.factor <= hi)
      && (r.Proceed? ==> r == Proceed(c.(rangeUnknown := false)))
      && (!r.Proceed? ==> r == Failed(FactorOutOfRange(args.factor, lo, hi)))
      && (hi < lo ==> r == Failed(FactorOutOfRange(args.factor, lo, hi)))
  {
  }

  /** A failed range lookup only warns: the run proceeds with the factor as given, whatever it is. */
  lemma RangeLookupErrorOnlyWarns(args: Args, methods: seq<string>, editsOf: string -> seq<string>,
                                  rangeOf: string -> RangeLookup, fileExists: string -> bool, c: Config)
    requires Accepts(args, methods, editsOf, rangeOf, fileExists, c)
    requires rangeOf(c.methodName) == LookupError
    ensures forall f: real :: Resolve(args.(factor := f), methods, editsOf, rangeOf, fileExists)
                              == Proceed(c.(factor := f))
  {
  }
}

=== FILE: wrappers.dfy ===
/** Python's `None` or a value. */
module Wrappers {

  datatype Option<+T> = None | Some(value: T)
}
